=== FILE: README.md ===
# Smart Bookmark: the client-side collection, in Dafny

This project models the client side of a small bookmark manager: a
single page that holds the signed-in user's bookmark collection, keeps it in
step with the backend, filters it by a live search query, and lets the user
add and delete bookmarks optimistically (the local change comes first, the
remote write second, and a failed write is only logged).

The model is split along the program's own structure:

- `Bookmarks`: the records (user, session, bookmark row, insert payload, the
  outcome of a remote write, the failures that are logged).
- `Seqs`: `Array.prototype.filter` as a generic `Filter`, characterised as the
  unique order-preserving subsequence that keeps exactly the elements
  satisfying the predicate, each as often as before.
- `Text`: `toLowerCase` (on ASCII letters) and `includes` (substring test),
  with `includes` proved equal to "occurs at some position".
- `Collection`: the three reducers on the page's list: optimistic add in
  front, optimistic delete by id, and refresh from a fetch result.
- `Search`: the list component's filter (case-insensitive substring match on
  title or url) and its choice between placeholder cards, the empty-state
  panel with its two wordings, and the grid.
- `Page`: the page as an event-driven state machine (session lookup, auth
  events, fetch results, realtime notifications, callbacks, query changes,
  the sign-out button), a `Run` over a sequence of events, and the render gate.
- `Commands`: the add form's submit handler and a card's delete button, as
  the ordered effects they perform. A user-visible effect replayed over the
  form state or the page's collection gives the state after the command.

No backend call is executed. The page's own requests are effects it asks
for (`PageEffect`): a fetch of the collection, a redirect, the remote
sign-out, and a console log. The answers to the mount-time `getSession`
lookup, the `onAuthStateChange` listener, the fetch and the realtime channel
come back to the page as events (`PageEvent`). The add form's `insert` and the
list's `delete` are effects of the two commands (`Commands.Effect`), and their
outcomes are parameters of those commands. The random temporary id and the
clock are parameters of the submit command too.

On a sign-out event the page forgets the user, turns the spinner off and
redirects to `/login`, but it keeps the collection
(`src/app/page.tsx:64-68`). `Page.OnAuthStateChange` keeps the collection on
every auth event, and `Page.SignOutThenSignIn` shows it surviving a
sign-out followed by a sign-in.

## Model

| member | source | states |
|---|---|---|
| Seqs.Filter | src/app/page.tsx:107 | `filter` keeps an order-preserving subsequence of its input that holds exactly the elements satisfying the predicate, each as many times as the input holds it, and is never longer than the input |
| Seqs.FilterUnique | src/components/BookmarkList.tsx:40-43 | any subsequence with exactly the satisfying elements at their input multiplicities is the `filter` result, so those properties pin the result down |
| Seqs.FilterIdempotent | src/components/BookmarkList.tsx:40-43 | filtering the result again with the same predicate changes nothing |
| Seqs.FilterCommute | src/app/page.tsx:107 | two filters applied in either order give the same list |
| Text.Lower | src/components/BookmarkList.tsx:41-42 | `toLowerCase` keeps the length, lowers each character in place and leaves no upper-case ASCII letter |
| Text.LowerIdempotent | src/components/BookmarkList.tsx:41-42 | lowering a lowered string changes nothing |
| Text.IncludesIffOccurs | src/components/BookmarkList.tsx:41-42 | `Text.Includes`, the model of `includes`, holds exactly when the substring occurs at some position of the string |
| Collection.Add | src/app/page.tsx:102-104 | the optimistic add puts the new record in front and leaves the previous list intact behind it |
| Collection.Delete | src/app/page.tsx:106-108 | the optimistic delete leaves no record with the id, and keeps every other record, in order and with its multiplicity |
| Collection.DeleteCharacterised | src/app/page.tsx:107 | those properties determine the delete's result uniquely |
| Collection.DeleteAbsent | src/app/page.tsx:107 | deleting an id no record carries leaves the list as it was |
| Collection.DeleteIdempotent | src/app/page.tsx:107 | deleting the same id twice equals deleting it once |
| Collection.DeleteCommute | src/app/page.tsx:107 | two deletes commute |
| Collection.AddThenDelete | src/app/page.tsx:102-108 | adding a record with a fresh id and then deleting that id restores the list |
| Collection.Refresh | src/app/page.tsx:32-36 | a response without error replaces the list by its rows (none when `data` is null); an error response or a rejection keeps the list |
| Collection.RefreshSupersedes | src/app/page.tsx:35 | after a successful refresh the list no longer depends on what it held before |
| Collection.RefreshIdempotent | src/app/page.tsx:32-36 | applying the same fetch result twice equals applying it once |
| Search.FilterBookmarks | src/components/BookmarkList.tsx:40-43 | the visible records are an order-preserving subsequence of the collection holding exactly the records whose lowered title or url includes the lowered query |
| Search.MatchesIffOccurs | src/components/BookmarkList.tsx:40-43 | `Search.Matches`, the filter's test on one record, holds exactly when the lowered query occurs in the lowered title or in the lowered url |
| Search.EmptyQueryKeepsAll | src/components/BookmarkList.tsx:25-43 | with the default empty query every record is shown, in order |
| Search.FilterIdempotent | src/components/BookmarkList.tsx:40-43 | filtering the visible records again with the same query changes nothing |
| Search.CaseInsensitive | src/components/BookmarkList.tsx:41-42 | two queries that differ only in letter case show the same records |
| Search.LoweredQuery | src/components/BookmarkList.tsx:41-42 | lowering the query first shows the same records |
| Search.DeleteThenFilter | src/components/BookmarkList.tsx:40-43 | deleting then filtering equals filtering then deleting, and the deleted id is never shown |
| Search.AddThenFilter | src/components/BookmarkList.tsx:40-43 | an added record heads the visible list exactly when it matches the query; otherwise the visible list is unchanged |
| Search.MissingLetterNoMatch | src/components/BookmarkList.tsx:40-43 | whatever the query's first character, a record none of whose title or url characters lowers to that character's lowercase is not shown |
| Search.GitExample | src/components/BookmarkList.tsx:40-43 | the query "git" shows GitHub and hides Example |
| Search.View | src/components/BookmarkList.tsx:45-71 | six placeholders exactly while loading; the empty-state panel exactly when nothing survives the filter, worded "No matches found" with its hint when a query is typed and "Your collection is empty" with its hint otherwise; otherwise a grid of the filtered records |
| Search.EmptyCollectionPanel | src/components/BookmarkList.tsx:55-69 | with no query, the "Your collection is empty" panel appears exactly when the collection is empty |
| Page.SessionCheckAsInitialSession | src/app/page.tsx:45-63 | `Page.OnSessionChecked`, the mount-time session lookup, reacts to a session exactly as the listener reacts to an initial-session event carrying it: a user is adopted with one fetch, and no user changes nothing |
| Page.MountFetchesTwice | src/app/page.tsx:44-69 | a mount that finds a signed-in session, followed by the listener's initial-session event for it, asks for two fetches and ends with that user and the spinner still on |
| Page.OnAuthStateChange | src/app/page.tsx:58-69 | a fetch is asked exactly for a sign-in or initial-session event with a user, and then only one; a redirect to `/login` exactly on sign-out, which clears the user and the spinner; the collection and query never change; other events do nothing |
| Page.OnFetchSettled | src/app/page.tsx:25-42 | the collection is refreshed, user and query are kept, and the spinner is off in every case; the only effects are console logs: none on success, the fetch-error log on an error response, the unexpected-error log on a rejection |
| Page.SignOutButtonThenEvent | src/app/page.tsx:97-100 | `Page.OnSignOutClicked`, the sign-out button, followed by the sign-out event asks for the remote sign-out and then two redirects to `/login`, in that order; the page then renders nothing and keeps the collection |
| Page.RefreshAfterAnything | src/app/page.tsx:32-40 | whatever events came before, a successful fetch leaves exactly the returned rows and the spinner off |
| Page.EveryChangeRefetches | src/app/page.tsx:83-88 | over any event sequence, the fetches asked for are at least as many as the change notifications received on the bookmarks table; this follows from the rule of `Page.OnRealtimeChange` |
| Page.RealtimeChangeInvisible | src/app/page.tsx:85-87 | by the rule of `Page.OnRealtimeChange`, a change notification anywhere in the event sequence leaves the final state as it would be without it, and adds exactly one fetch request at its position |
| Page.RunConcat | src/app/page.tsx:17-108 | the page handles events one at a time: `Page.Run` folds `Page.Step` over the sequence, and running two sequences one after the other equals running their concatenation, in state and in requested effects |
| Page.RunAppend | src/app/page.tsx:17-108 | one more event continues from the state `Page.Run` reached, and its effects are appended to the earlier ones |
| Page.SignOutThenSignIn | src/app/page.tsx:58-69 | a sign-out then a sign-in with a user asks for the login redirect and then exactly one fetch, and keeps the collection |
| Page.RenderGate | src/app/page.tsx:110-118 | spinner exactly while loading, nothing exactly when loaded without a user, the library exactly when loaded with a user |
| Page.SignOutRendersBlank | src/app/page.tsx:64-68 | after a sign-out event the page renders nothing |
| Page.SignInThenFetchShowsMain | src/app/page.tsx:58-63 | a sign-in with a user followed by the fetch's settling shows the library, whatever the fetch returned |
| Page.MainViewNeverSkeleton | src/app/page.tsx:110-118 | when the library is shown, the list never shows its placeholder cards |
| Commands.SubmitStart | src/components/AddBookmarkForm.tsx:13-38 | without a user only the default is prevented and nothing changes; with one, the form turns busy, the fields are cleared before the add callback, which runs once with the record built from the fields, the temporary id, the clock and the user id, and the insert of title, url and owner is sent once and last, six effects in all, with no delete, remote delete or log; the form stays busy and the page's list gains the record in front |
| Commands.SubmitStartSignedIn | src/components/AddBookmarkForm.tsx:17-38 | for a signed-in user: the default is prevented, the form turns busy, the fields are cleared before the add callback, which runs once with the record built from the fields, the temporary id, the clock and the user id; the insert of title, url and owner is sent once and last, six effects in all, with no delete, remote delete or log; the form stays busy; the page's list gains the record in front |
| Commands.SubmitSettle | src/components/AddBookmarkForm.tsx:40-44 | once the insert settles, the effects are the add-failure log, once and exactly when there was an error, then turning the form idle, once and last (two effects on an error, one otherwise); no callback or insert runs, so nothing is rolled back |
| Commands.WholeSubmission | src/components/AddBookmarkForm.tsx:13-45 | after the whole submission, whatever the insert's outcome, the fields are empty, the form is idle and the page's list holds the provisional record in front |
| Commands.DeleteCommand | src/components/BookmarkList.tsx:29-38 | the delete callback runs once, before the single remote delete by the same id; on a failure the delete-failure log follows, once and last (three effects on a failure, two otherwise), and no other effect occurs, so nothing is added back; the page's list is the optimistic delete's result |

## Left out

- The three-second fallback timer (`src/app/page.tsx:71-81`) is left out. It reads the `loading` and `user` values captured when the effect was set up, and it performs a second `getUser` round trip. Modelling it needs a clock and a stale-closure semantics.
- Effect teardown is left out: unsubscribing the auth listener, removing the realtime channel and clearing the timer. They change no modelled state.
- React's batching and re-render scheduling are left out. Each event is applied to the state atomically, in the order it arrives.
- A remote insert or delete whose promise rejects is left out. The backend SDK reports failures as an `error` value, which is modelled. The page's fetch is wrapped in `try`/`catch`, so for the fetch a rejection is modelled.
- `toLowerCase` is modelled on ASCII letters only. Unicode case mapping is not modelled.
- The temporary id (`Math.random().toString(36).substring(7)`) and the timestamp (`new Date().toISOString()`) are parameters. Their formats are not modelled.
- Which rows the backend returns, and that it orders them by creation time, newest first, is not modelled. The rows are an input of the fetch result.
- The rows the insert's `.select()` returns are not modelled, because the form ignores them.
- Rendering details are left out: favicons, host names, date formatting, icons, styling and the layout component (`src/app/layout.tsx`). The list area is modelled only as placeholders, an empty-state panel or a grid of records.
- The console output is modelled as which failure is logged (its message prefix is noted on each `Failure` constructor). The error object printed alongside it is not modelled.
- Page.OnSignOutClicked: the remote sign-out and the redirect are one step. `handleSignOut` awaits `signOut()` before it redirects (`src/app/page.tsx:97-100`), so a rejected sign-out never redirects; that path is not modelled.

=== FILE: bookmarks.dfy ===
/** The records the bookmark manager passes around. */
module Bookmarks {
  import opened Wrappers

  /** The signed-in user; only the identifier is ever read. */
  datatype User = User(id: string)

  /** The session the auth service reports; `user` may be missing (`session?.user`). */
  datatype Session = Session(user: Option<User>)

  /**
   * One row of the `bookmarks` table as the client holds it. Timestamps are
   * kept as the ISO strings the backend and `Date.toISOString` produce.
   */
  datatype Bookmark = Bookmark(
    id: string,
    title: string,
    url: string,
    createdAt: string,
    userId: string)

  /**
   * The payload of the remote insert: title, url and owner only; the id and
   * the timestamp are assigned by the backend.
   */
  datatype InsertRow = InsertRow(title: string, url: string, userId: string)

  /** Outcome of a remote insert or delete: the SDK reports failures as values. */
  datatype WriteOutcome = WriteOk | WriteError(message: string)

  /** The failures the client logs to the console; none is shown to the user or retried. */
  datatype Failure =
    | FetchFailed   // "Error fetching bookmarks:"
    | FetchThrew    // "Unexpected error fetching bookmarks:"
    | AddFailed     // "Error adding bookmark:"
    | DeleteFailed  // "Error deleting bookmark:"

  /** The ids present in a list of records. */
  ghost function Ids(list: seq<Bookmark>): set<string> {
    set b | b in list :: b.id
  }
}

=== FILE: collection.dfy ===
/**
 * The bookmark collection the top-level page owns, and the three ways it
 * changes: optimistic add, optimistic delete, and a refresh from the backend.
 */
module Collection {
  import opened Wrappers
  import opened Seqs
  import opened Bookmarks

  /** What a `select` on the bookmarks table settles with. */
  datatype FetchResult =
    | Responded(data: Option<seq<Bookmark>>, error: Option<string>)  // the SDK's `{ data, error }`
    | Threw(reason: string)                                          // the awaited call rejected

  /** Optimistic add: the new record goes in front of the current list. */
  function Add(list: seq<Bookmark>, b: Bookmark): (r: seq<Bookmark>)
    ensures |r| == |list| + 1
    ensures r[0] == b && r[1..] == list
  {
    [b] + list
  }

  /** The predicate the delete reducer filters with. */
  function Keeps(id: string): Bookmark -> bool {
    (b: Bookmark) => b.id != id
  }

  /**
   * Optimistic delete: drops every record with the given id and keeps every
   * other one, unmodified and in the same relative order.
   */
  function Delete(list: seq<Bookmark>, id: string): (r: seq<Bookmark>)
    ensures forall b :: b in r ==> b.id != id
    ensures forall b :: b in list && b.id != id ==> b in r
    ensures forall b: Bookmark :: b.id != id ==> multiset(r)[b] == multiset(list)[b]
    ensures IsSubsequence(r, list)
  {
    Filter(list, Keeps(id))
  }

  /**
   * The list after a fetch settles: replaced by the returned rows (none when
   * `data` is null) when there is no error, and left as it was on an error
   * or a rejection.
   */
  function Refresh(list: seq<Bookmark>, result: FetchResult): (r: seq<Bookmark>)
    ensures result.Responded? && result.error.None? && result.data.Some? ==> r == result.data.value
    ensures result.Responded? && result.error.None? && result.data.None? ==> r == []
    ensures result.Threw? || (result.Responded? && result.error.Some?) ==> r == list
  {
    match result
    case Responded(data, error) => if error.Some? then list else data.GetOr([])
    case Threw(_) => list
  }

  /** The result of `Delete` is the only list with the properties its contract states. */
  lemma DeleteCharacterised(list: seq<Bookmark>, id: string, r: seq<Bookmark>)
    requires IsSubsequence(r, list)
    requires forall b :: b in r ==> b.id != id
    requires forall b: Bookmark :: b.id != id ==> multiset(r)[b] == multiset(list)[b]
    ensures r == Delete(list, id)
  {
    FilterUnique(list, Keeps(id), r);
  }

  /** Deleting an id that no record carries leaves the list unchanged. */
  lemma DeleteAbsent(list: seq<Bookmark>, id: string)
    requires id !in Ids(list)
    ensures Delete(list, id) == list
  {
    assert forall b :: b in list ==> Keeps(id)(b);
    FilterKeepsAll(list, Keeps(id));
  }

  /** Deleting the same id twice is deleting it once. */
  lemma DeleteIdempotent(list: seq<Bookmark>, id: string)
    ensures Delete(Delete(list, id), id) == Delete(list, id)
  {
    FilterIdempotent(list, Keeps(id));
  }

  /** Two deletes commute. */
  lemma DeleteCommute(list: seq<Bookmark>, a: string, b: string)
    ensures Delete(Delete(list, a), b) == Delete(Delete(list, b), a)
  {
    FilterCommute(list, Keeps(a), Keeps(b));
  }

  /** Adding a record whose id is fresh and then deleting that id restores the list. */
  lemma AddThenDelete(list: seq<Bookmark>, b: Bookmark)
    requires b.id !in Ids(list)
    ensures Delete(Add(list, b), b.id) == list
  {
    DeleteAbsent(list, b.id);
  }

  /** A successful refresh replaces the list whatever it held before. */
  lemma RefreshSupersedes(a: seq<Bookmark>, b: seq<Bookmark>, result: FetchResult)
    requires result.Responded? && result.error.None?
    ensures Refresh(a, result) == Refresh(b, result)
  {
  }

  /** Refreshing twice with the same response gives the same list as refreshing once. */
  lemma RefreshIdempotent(list: seq<Bookmark>, result: FetchResult)
    ensures Refresh(Refresh(list, result), result) == Refresh(list, result)
  {
  }
}

=== FILE: commands.dfy ===
/**
 * The two user commands, as the ordered effects they perform: submitting the
 * add form and pressing a card's delete button. The random temporary id, the
 * clock and the backend's answer are parameters; the answer arrives after the
 * optimistic steps and nothing is undone when it is an error.
 */
module Commands {
  import opened Wrappers
  import opened Bookmarks
  import Collection

  /** The add form's own state: its two input fields and its busy flag. */
  datatype FormState = FormState(title: string, url: string, loading: bool)

  /** One observable step of a command. */
  datatype Effect =
    | PreventDefault               // the submit event's default navigation is suppressed
    | SetFormLoading(on: bool)
    | SetTitle(title: string)
    | SetUrl(url: string)
    | CallOnAdd(record: Bookmark)  // the page's optimistic add callback
    | CallOnDelete(id: string)     // the page's optimistic delete callback
    | RemoteInsert(row: InsertRow)
    | RemoteDelete(id: string)
    | LogError(failure: Failure)

  /** `a` occurs in `t` at some position before an occurrence of `b`. */
  ghost predicate Before(t: seq<Effect>, a: Effect, b: Effect) {
    exists i, j :: 0 <= i < j < |t| && t[i] == a && t[j] == b
  }

  /** Replays a trace over some state, one effect at a time from the front. */
  function Replay<S>(s: S, t: seq<Effect>, step: (S, Effect) -> S): S
    decreases |t|
  {
    if |t| == 0 then s else Replay(step(s, t[0]), t[1..], step)
  }

  lemma {:induction false} ReplayAppend<S>(s: S, a: seq<Effect>, b: seq<Effect>, step: (S, Effect) -> S)
    ensures Replay(s, a + b, step) == Replay(Replay(s, a, step), b, step)
    decreases |a|
  {
    if |a| == 0 {
      assert a + b == b;
    } else {
      assert (a + b)[0] == a[0];
      assert (a + b)[1..] == a[1..] + b;
      ReplayAppend(step(s, a[0]), a[1..], b, step);
    }
  }

  /** What the page's collection does with a callback effect; every other effect leaves it alone. */
  function ListStep(list: seq<Bookmark>, e: Effect): seq<Bookmark> {
    match e
    case CallOnAdd(b) => Collection.Add(list, b)
    case CallOnDelete(id) => Collection.Delete(list, id)
    case _ => list
  }

  /** What the form's fields and busy flag do with an effect. */
  function FormStep(form: FormState, e: Effect): FormState {
    match e
    case SetTitle(title) => form.(title := title)
    case SetUrl(url) => form.(url := url)
    case SetFormLoading(on) => form.(loading := on)
    case _ => form
  }

  /** The page's collection after the callbacks a trace performs. */
  function ApplyCallbacks(list: seq<Bookmark>, t: seq<Effect>): seq<Bookmark> {
    Replay(list, t, ListStep)
  }

  /** The form after the field and flag updates a trace performs. */
  function ApplyForm(form: FormState, t: seq<Effect>): FormState {
    Replay(form, t, FormStep)
  }

  lemma ReplaySingle<S>(s: S, e: Effect, step: (S, Effect) -> S)
    ensures Replay(s, [e], step) == step(s, e)
  {
    assert [e][1..] == [];
  }

  /** The add callback runs exactly once, with `record`, and before the insert of `row`, which is sent exactly once. */
  ghost predicate AddsOnceThenInserts(t: seq<Effect>, record: Bookmark, row: InsertRow) {
    && multiset(t)[CallOnAdd(record)] == 1
    && (forall e :: e in t && e.CallOnAdd? ==> e == CallOnAdd(record))
    && multiset(t)[RemoteInsert(row)] == 1
    && (forall e :: e in t && e.RemoteInsert? ==> e == RemoteInsert(row))
    && Before(t, CallOnAdd(record), RemoteInsert(row))
  }

  /** Both input fields are emptied before effect `e`. */
  ghost predicate ClearedBefore(t: seq<Effect>, e: Effect) {
    Before(t, SetTitle(""), e) && Before(t, SetUrl(""), e)
  }

  /** The form is made busy by the second effect and nothing later touches the flag. */
  ghost predicate BusyFromSecond(t: seq<Effect>) {
    && |t| > 1
    && t[1] == SetFormLoading(true)
    && forall i :: 1 < i < |t| ==> !t[i].SetFormLoading?
  }

  /** Nothing on the delete side happens, locally or remotely, and no error is logged. */
  ghost predicate NoDeleteNorLog(t: seq<Effect>) {
    forall e :: e in t ==> !e.CallOnDelete? && !e.RemoteDelete? && !e.LogError?
  }

  /**
   * The six effects of a signed-in submission up to the awaited insert: the
   * form turns busy and stays so, the provisional record is built from the
   * current fields, the clock, the temporary id and the user, the fields are
   * cleared before the add callback runs once with that record, and the
   * insert of title, url and owner is sent once and last. The form ends with
   * empty fields, still busy, and the page's list gains the record in front.
   */
  ghost predicate SignedInStart(trace: seq<Effect>, form: FormState, u: User, tempId: string, now: string) {
    var record := Bookmark(tempId, form.title, form.url, now, u.id);
    var row := InsertRow(form.title, form.url, u.id);
    && |trace| == 6
    && AddsOnceThenInserts(trace, record, row)
    && ClearedBefore(trace, CallOnAdd(record))
    && trace[|trace| - 1] == RemoteInsert(row)
    && ApplyForm(form, trace) == FormState("", "", true)
    && (forall list :: ApplyCallbacks(list, trace) == Collection.Add(list, record))
    && BusyFromSecond(trace)
  }

  /**
   * The part of submitting the add form (`handleSubmit`) that runs before it
   * awaits the insert. Without a user only the default is prevented and
   * nothing else changes. Otherwise the form turns busy, the provisional
   * record is built from the current fields, the clock and the temporary id,
   * the fields are cleared, the page's add callback runs once with that
   * record, and the insert is sent last, with the same title and url and the
   * owner only. The form stays busy while the insert is awaited. Those six
   * effects are all there is: nothing is deleted and nothing is logged.
   */
  method SubmitStart(form: FormState, user: Option<User>, tempId: string, now: string)
    returns (trace: seq<Effect>)
    ensures 0 < |trace| && trace[0] == PreventDefault
    ensures user.None? ==>
      && trace == [PreventDefault]
      && ApplyForm(form, trace) == form
      && forall list :: ApplyCallbacks(list, trace) == list
    ensures user.Some? ==> SignedInStart(trace, form, user.value, tempId, now)
    ensures NoDeleteNorLog(trace)
  {
    if user.None? {
      trace := [PreventDefault];
      assert forall list :: ApplyCallbacks(list, trace) == list by {
        forall list: seq<Bookmark> ensures ApplyCallbacks(list, trace) == list {
          ReplaySingle(list, PreventDefault, ListStep);
        }
      }
      ReplaySingle(form, PreventDefault, FormStep);
    } else {
      trace := SubmitStartSignedIn(form, user.value, tempId, now);
    }
  }

  /** The signed-in branch of `SubmitStart`, for the user `u`. */
  method SubmitStartSignedIn(form: FormState, u: User, tempId: string, now: string)
    returns (trace: seq<Effect>)
    ensures 0 < |trace| && trace[0] == PreventDefault
    ensures SignedInStart(trace, form, u, tempId, now)
    ensures NoDeleteNorLog(trace)
  {
    var record := Bookmark(tempId, form.title, form.url, now, u.id);
    trace := StartShape(record, InsertRow(record.title, record.url, u.id));
    StartFacts(form, record, InsertRow(record.title, record.url, u.id));
  }

  /** The effects of a signed-in submission up to the awaited insert. */
  function StartShape(record: Bookmark, row: InsertRow): seq<Effect> {
    [PreventDefault, SetFormLoading(true), SetTitle(""), SetUrl(""), CallOnAdd(record), RemoteInsert(row)]
  }

  /** Everything the signed-in branch of `SubmitStart` promises, about its effects. */
  lemma StartFacts(form: FormState, record: Bookmark, row: InsertRow)
    ensures AddsOnceThenInserts(StartShape(record, row), record, row)
    ensures ClearedBefore(StartShape(record, row), CallOnAdd(record))
    ensures ApplyForm(form, StartShape(record, row)) == FormState("", "", true)
    ensures forall list :: ApplyCallbacks(list, StartShape(record, row)) == Collection.Add(list, record)
    ensures BusyFromSecond(StartShape(record, row))
    ensures NoDeleteNorLog(StartShape(record, row))
    ensures |StartShape(record, row)| == 6
  {
    StartAddsOnce(record, row);
    StartCleared(record, row);
    StartFlags(record, row);
    StartForm(form, record, row);
    forall list: seq<Bookmark>
      ensures ApplyCallbacks(list, StartShape(record, row)) == Collection.Add(list, record)
    {
      StartCallbacks(list, record, row);
    }
  }

  lemma StartFlags(record: Bookmark, row: InsertRow)
    ensures BusyFromSecond(StartShape(record, row))
    ensures NoDeleteNorLog(StartShape(record, row))
  {
  }

  lemma StartCleared(record: Bookmark, row: InsertRow)
    ensures ClearedBefore(StartShape(record, row), CallOnAdd(record))
  {
    var t := StartShape(record, row);
    assert t[2] == SetTitle("") && t[3] == SetUrl("") && t[4] == CallOnAdd(record);
  }

  lemma StartAddsOnce(record: Bookmark, row: InsertRow)
    ensures AddsOnceThenInserts(StartShape(record, row), record, row)
  {
    var t := StartShape(record, row);
    StartCounts(record, row);
    assert t[4] == CallOnAdd(record) && t[5] == RemoteInsert(row);
  }

  lemma StartCounts(record: Bookmark, row: InsertRow)
    ensures multiset(StartShape(record, row))[CallOnAdd(record)] == 1
    ensures multiset(StartShape(record, row))[RemoteInsert(row)] == 1
  {
    var head := [PreventDefault, SetFormLoading(true), SetTitle(""), SetUrl("")];
    assert StartShape(record, row) == head + [CallOnAdd(record)] + [RemoteInsert(row)];
    assert multiset(head)[CallOnAdd(record)] == 0 && multiset(head)[RemoteInsert(row)] == 0;
  }

  /** The only callback before the await is the add of the provisional record. */
  lemma StartCallbacks(list: seq<Bookmark>, record: Bookmark, row: InsertRow)
    ensures ApplyCallbacks(list, StartShape(record, row)) == Collection.Add(list, record)
  {
    var head := [PreventDefault, SetFormLoading(true), SetTitle(""), SetUrl("")];
    assert StartShape(record, row) == head + ([CallOnAdd(record)] + [RemoteInsert(row)]);
    ReplayAppend(list, head, [CallOnAdd(record)] + [RemoteInsert(row)], ListStep);
    ReplayAppend(list, [CallOnAdd(record)], [RemoteInsert(row)], ListStep);
    ReplaySingle(list, CallOnAdd(record), ListStep);
    ListInert(list, head);
    ListInert(Collection.Add(list, record), [RemoteInsert(row)]);
  }

  /** Before the await the fields are empty and the form is busy. */
  lemma StartForm(form: FormState, record: Bookmark, row: InsertRow)
    ensures ApplyForm(form, StartShape(record, row)) == FormState("", "", true)
  {
    var f1 := form.(loading := true);
    var head := [PreventDefault] + ([SetFormLoading(true)] + ([SetTitle("")] + [SetUrl("")]));
    assert StartShape(record, row) == head + [CallOnAdd(record), RemoteInsert(row)];
    ReplayAppend(form, head, [CallOnAdd(record), RemoteInsert(row)], FormStep);
    ReplayAppend(form, [PreventDefault], [SetFormLoading(true)] + ([SetTitle("")] + [SetUrl("")]), FormStep);
    ReplaySingle(form, PreventDefault, FormStep);
    ReplayAppend(form, [SetFormLoading(true)], [SetTitle("")] + [SetUrl("")], FormStep);
    ReplaySingle(form, SetFormLoading(true), FormStep);
    ReplayAppend(f1, [SetTitle("")], [SetUrl("")], FormStep);
    ReplaySingle(f1, SetTitle(""), FormStep);
    ReplaySingle(f1.(title := ""), SetUrl(""), FormStep);
    FormInert(FormState("", "", true), [CallOnAdd(record), RemoteInsert(row)]);
  }

  /**
   * The rest of `handleSubmit`, once the insert has settled: an error is
   * logged once, and either way the form then turns idle, last. Nothing is undone and no
   * callback runs.
   */
  method SubmitSettle(outcome: WriteOutcome) returns (trace: seq<Effect>)
    ensures 0 < |trace| && trace[|trace| - 1] == SetFormLoading(false)
    ensures LogError(AddFailed) in trace <==> outcome.WriteError?
    ensures forall e :: e in trace ==> !e.CallOnAdd? && !e.CallOnDelete? && !e.RemoteInsert?
    ensures forall e :: e in trace ==> e == LogError(AddFailed) || e == SetFormLoading(false)
    ensures |trace| == if outcome.WriteError? then 2 else 1
    ensures forall f :: ApplyForm(f, trace) == f.(loading := false)
  {
    trace := [];
    if outcome.WriteError? {
      trace := trace + [LogError(AddFailed)];
    }
    trace := trace + [SetFormLoading(false)];
    assert trace == SettleLog(outcome) + [SetFormLoading(false)];
    SettleEffects(outcome);
    forall f: FormState
      ensures ApplyForm(f, trace) == f.(loading := false)
    {
      SettleForm(f, outcome);
    }
  }

  /** The error log a settled insert leaves, if any. */
  function SettleLog(outcome: WriteOutcome): seq<Effect> {
    if outcome.WriteError? then [LogError(AddFailed)] else []
  }

  lemma SettleEffects(outcome: WriteOutcome)
    ensures LogError(AddFailed) in SettleLog(outcome) + [SetFormLoading(false)] <==> outcome.WriteError?
    ensures forall e :: e in SettleLog(outcome) + [SetFormLoading(false)] ==>
      !e.CallOnAdd? && !e.CallOnDelete? && !e.RemoteInsert?
    ensures forall e :: e in SettleLog(outcome) + [SetFormLoading(false)] ==>
      e == LogError(AddFailed) || e == SetFormLoading(false)
    ensures |SettleLog(outcome) + [SetFormLoading(false)]| == if outcome.WriteError? then 2 else 1
  {
  }

  /** Settling only turns the busy flag off. */
  lemma SettleForm(f: FormState, outcome: WriteOutcome)
    ensures ApplyForm(f, SettleLog(outcome) + [SetFormLoading(false)]) == f.(loading := false)
  {
    ReplayAppend(f, SettleLog(outcome), [SetFormLoading(false)], FormStep);
    FormInert(f, SettleLog(outcome));
    ReplaySingle(f, SetFormLoading(false), FormStep);
  }

  /**
   * The whole submission, whatever the insert's outcome: the fields end
   * empty, the form ends idle, and the page's collection holds the
   * provisional record in front, exactly as after the optimistic add.
   */
  lemma WholeSubmission(form: FormState, list: seq<Bookmark>, record: Bookmark, start: seq<Effect>, settle: seq<Effect>)
    requires ApplyForm(form, start) == FormState("", "", true)
    requires ApplyCallbacks(list, start) == Collection.Add(list, record)
    requires forall f :: ApplyForm(f, settle) == f.(loading := false)
    requires forall e :: e in settle ==> !e.CallOnAdd? && !e.CallOnDelete?
    ensures ApplyForm(form, start + settle) == FormState("", "", false)
    ensures ApplyCallbacks(list, start + settle) == Collection.Add(list, record)
  {
    ReplayAppend(form, start, settle, FormStep);
    ReplayAppend(list, start, settle, ListStep);
    ListInert(Collection.Add(list, record), settle);
  }

  /** Effects that are not callbacks leave the page's collection alone. */
  lemma {:induction false} ListInert(list: seq<Bookmark>, t: seq<Effect>)
    requires forall e :: e in t ==> !e.CallOnAdd? && !e.CallOnDelete?
    ensures ApplyCallbacks(list, t) == list
    decreases |t|
  {
    if |t| > 0 {
      assert t[0] in t;
      assert forall e :: e in t[1..] ==> e in t;
      ListInert(list, t[1..]);
    }
  }

  /** Effects that touch neither field nor the busy flag leave the form alone. */
  lemma {:induction false} FormInert(form: FormState, t: seq<Effect>)
    requires forall e :: e in t ==> !e.SetTitle? && !e.SetUrl? && !e.SetFormLoading?
    ensures ApplyForm(form, t) == form
    decreases |t|
  {
    if |t| > 0 {
      assert t[0] in t;
      assert forall e :: e in t[1..] ==> e in t;
      FormInert(form, t[1..]);
    }
  }

  /**
   * Pressing a card's delete button (`deleteBookmark`): the page's delete
   * callback runs first, then the remote delete by the same id; a failure is
   * logged once, after the remote delete, and no compensating callback follows.
   */
  method DeleteCommand(id: string, outcome: WriteOutcome) returns (trace: seq<Effect>)
    ensures 0 < |trace| && trace[0] == CallOnDelete(id)
    ensures Before(trace, CallOnDelete(id), RemoteDelete(id))
    ensures multiset(trace)[CallOnDelete(id)] == 1 && multiset(trace)[RemoteDelete(id)] == 1
    ensures forall e :: e in trace && (e.CallOnDelete? || e.RemoteDelete?) ==> e.id == id
    ensures forall e :: e in trace ==> !e.CallOnAdd? && !e.RemoteInsert?
    ensures LogError(DeleteFailed) in trace <==> outcome.WriteError?
    ensures forall e :: e in trace ==> e == CallOnDelete(id) || e == RemoteDelete(id) || e == LogError(DeleteFailed)
    ensures |trace| == if outcome.WriteError? then 3 else 2
    ensures outcome.WriteError? ==> trace[|trace| - 1] == LogError(DeleteFailed)
    ensures forall list :: ApplyCallbacks(list, trace) == Collection.Delete(list, id)
  {
    trace := [CallOnDelete(id), RemoteDelete(id)];
    if outcome.WriteError? {
      trace := trace + [LogError(DeleteFailed)];
    }
    assert trace == DeleteShape(id, outcome);
    DeleteOrder(id, outcome);
    DeleteOthers(id, outcome);
    forall list: seq<Bookmark>
      ensures ApplyCallbacks(list, trace) == Collection.Delete(list, id)
    {
      DeleteCallbacks(list, id, outcome);
    }
  }

  /** The effects of a delete, given the backend's answer. */
  function DeleteShape(id: string, outcome: WriteOutcome): seq<Effect> {
    [CallOnDelete(id), RemoteDelete(id)] + if outcome.WriteError? then [LogError(DeleteFailed)] else []
  }

  lemma DeleteOrder(id: string, outcome: WriteOutcome)
    ensures Before(DeleteShape(id, outcome), CallOnDelete(id), RemoteDelete(id))
    ensures multiset(DeleteShape(id, outcome))[CallOnDelete(id)] == 1
    ensures multiset(DeleteShape(id, outcome))[RemoteDelete(id)] == 1
    ensures |DeleteShape(id, outcome)| == if outcome.WriteError? then 3 else 2
    ensures outcome.WriteError? ==> DeleteShape(id, outcome)[2] == LogError(DeleteFailed)
  {
  }

  lemma DeleteOthers(id: string, outcome: WriteOutcome)
    ensures forall e :: e in DeleteShape(id, outcome) && (e.CallOnDelete? || e.RemoteDelete?) ==> e.id == id
    ensures forall e :: e in DeleteShape(id, outcome) ==> !e.CallOnAdd? && !e.RemoteInsert?
    ensures LogError(DeleteFailed) in DeleteShape(id, outcome) <==> outcome.WriteError?
    ensures forall e :: e in DeleteShape(id, outcome) ==>
      e == CallOnDelete(id) || e == RemoteDelete(id) || e == LogError(DeleteFailed)
  {
  }

  /** Only the delete callback changes the page's collection. */
  lemma DeleteCallbacks(list: seq<Bookmark>, id: string, outcome: WriteOutcome)
    ensures ApplyCallbacks(list, DeleteShape(id, outcome)) == Collection.Delete(list, id)
  {
    var t := DeleteShape(id, outcome);
    ReplayAppend(list, [CallOnDelete(id)], t[1..], ListStep);
    assert t == [CallOnDelete(id)] + t[1..];
    ReplaySingle(list, CallOnDelete(id), ListStep);
    ListInert(Collection.Delete(list, id), t[1..]);
  }
}

=== FILE: page.dfy ===
/**
 * The top-level page: who is signed in, the bookmark collection, the loading
 * flag and the search query, and how each incoming event changes them. Calls
 * into the backend appear only as effects the page asks for; their answers
 * come back as later events.
 */
module Page {
  import opened Wrappers
  import opened Bookmarks
  import Collection
  import Search

  const LoginPath := "/login"
  const SignedInEvent := "SIGNED_IN"
  const InitialSessionEvent := "INITIAL_SESSION"
  const SignedOutEvent := "SIGNED_OUT"

  datatype PageState = PageState(
    user: Option<User>,
    bookmarks: seq<Bookmark>,
    loading: bool,
    query: string)

  /** On mount: nobody signed in yet, an empty collection, the spinner on, no query. */
  const Initial := PageState(None, [], true, "")

  /** What the page asks the outside world to do. */
  datatype PageEffect =
    | FetchBookmarks           // select all rows, newest first; answered by `FetchSettled`
    | RedirectTo(path: string) // router navigation
    | SignOutRemote            // the auth service's sign-out
    | LogError(failure: Failure)

  datatype Transition = Transition(state: PageState, effects: seq<PageEffect>)

  /** The events the page reacts to. */
  datatype PageEvent =
    | SessionChecked(session: Option<Session>)               // the mount-time session lookup answered
    | AuthStateChanged(event: string, session: Option<Session>)
    | FetchSettled(result: Collection.FetchResult)
    | RealtimeChange                                         // any change on the bookmarks table
    | Added(record: Bookmark)                                // the form's optimistic add callback
    | Deleted(id: string)                                    // the list's optimistic delete callback
    | QueryChanged(query: string)
    | SignOutClicked

  /** `session?.user`. */
  function SessionUser(session: Option<Session>): Option<User> {
    if session.Some? then session.value.user else None
  }

  predicate IsSignInEvent(event: string) {
    event == SignedInEvent || event == InitialSessionEvent
  }

  /**
   * Mount-time session lookup: a user is adopted and fetched for; no user
   * means keep waiting for the auth listener.
   */
  function OnSessionChecked(st: PageState, session: Option<Session>): Transition {
    match SessionUser(session)
    case Some(u) => Transition(st.(user := Some(u)), [FetchBookmarks])
    case None => Transition(st, [])
  }

  /**
   * The auth listener. A sign-in (or the initial session) carrying a user
   * adopts it and asks for exactly one fetch; without a user it does nothing.
   * A sign-out forgets the user, drops the spinner and redirects to the login
   * page, but leaves the collection as it was. Every other event is ignored.
   */
  function OnAuthStateChange(st: PageState, event: string, session: Option<Session>): (r: Transition)
    ensures r.state.bookmarks == st.bookmarks && r.state.query == st.query
    ensures FetchBookmarks in r.effects <==> IsSignInEvent(event) && SessionUser(session).Some?
    ensures RedirectTo(LoginPath) in r.effects <==> event == SignedOutEvent
    ensures IsSignInEvent(event) && SessionUser(session).Some? ==>
      r.state.user == SessionUser(session) && r.state.loading == st.loading
      && r.effects == [FetchBookmarks]
    ensures event == SignedOutEvent ==>
      r.state.user.None? && !r.state.loading && r.effects == [RedirectTo(LoginPath)]
    ensures IsSignInEvent(event) && SessionUser(session).None? ==> r == Transition(st, [])
    ensures !IsSignInEvent(event) && event != SignedOutEvent ==> r == Transition(st, [])
  {
    if IsSignInEvent(event) then
      match SessionUser(session)
      case Some(u) => Transition(st.(user := Some(u)), [FetchBookmarks])
      case None => Transition(st, [])
    else if event == SignedOutEvent then
      Transition(st.(user := None, loading := false), [RedirectTo(LoginPath)])
    else
      Transition(st, [])
  }

  /**
   * A fetch settling: the collection is refreshed as `Collection.Refresh`
   * says, a failure is logged, and the spinner is off afterwards in every case.
   */
  function OnFetchSettled(st: PageState, result: Collection.FetchResult): (r: Transition)
    ensures !r.state.loading
    ensures r.state.bookmarks == Collection.Refresh(st.bookmarks, result)
    ensures r.state.user == st.user && r.state.query == st.query
    ensures r.effects == [] <==> result.Responded? && result.error.None?
    ensures forall e :: e in r.effects ==> e.LogError?
    ensures result.Responded? && result.error.Some? ==> r.effects == [LogError(FetchFailed)]
    ensures result.Threw? ==> r.effects == [LogError(FetchThrew)]
  {
    var next := st.(bookmarks := Collection.Refresh(st.bookmarks, result), loading := false);
    match result
    case Responded(_, error) =>
      if error.Some? then Transition(next, [LogError(FetchFailed)])
      else Transition(next, [])
    case Threw(_) => Transition(next, [LogError(FetchThrew)])
  }

  /** Any change notification on the bookmarks table asks for a full refetch and nothing else. */
  function OnRealtimeChange(st: PageState): Transition {
    Transition(st, [FetchBookmarks])
  }

  /** The sign-out button: sign out remotely, then go to the login page; the state is untouched. */
  function OnSignOutClicked(st: PageState): Transition {
    Transition(st, [SignOutRemote, RedirectTo(LoginPath)])
  }

  function Step(st: PageState, e: PageEvent): Transition {
    match e
    case SessionChecked(session) => OnSessionChecked(st, session)
    case AuthStateChanged(event, session) => OnAuthStateChange(st, event, session)
    case FetchSettled(result) => OnFetchSettled(st, result)
    case RealtimeChange => OnRealtimeChange(st)
    case Added(record) => Transition(st.(bookmarks := Collection.Add(st.bookmarks, record)), [])
    case Deleted(id) => Transition(st.(bookmarks := Collection.Delete(st.bookmarks, id)), [])
    case QueryChanged(query) => Transition(st.(query := query), [])
    case SignOutClicked => OnSignOutClicked(st)
  }

  /** Processes events in order, collecting the effects they ask for. */
  function Run(st: PageState, events: seq<PageEvent>): Transition
    decreases |events|
  {
    if |events| == 0 then Transition(st, [])
    else
      var first := Step(st, events[0]);
      var rest := Run(first.state, events[1..]);
      Transition(rest.state, first.effects + rest.effects)
  }

  /** Running one more event continues from where the log left off. */
  lemma {:induction false} RunAppend(st: PageState, events: seq<PageEvent>, e: PageEvent)
    ensures Run(st, events + [e]).state == Step(Run(st, events).state, e).state
    ensures Run(st, events + [e]).effects == Run(st, events).effects + Step(Run(st, events).state, e).effects
    decreases |events|
  {
    if |events| == 0 {
      assert events + [e] == [e];
    } else {
      var first := Step(st, events[0]);
      assert (events + [e])[0] == events[0];
      assert (events + [e])[1..] == events[1..] + [e];
      RunAppend(first.state, events[1..], e);
    }
  }

  /** Running two logs one after the other is running their concatenation. */
  lemma {:induction false} RunConcat(st: PageState, a: seq<PageEvent>, b: seq<PageEvent>)
    ensures Run(st, a + b).state == Run(Run(st, a).state, b).state
    ensures Run(st, a + b).effects == Run(st, a).effects + Run(Run(st, a).state, b).effects
    decreases |b|
  {
    if |b| == 0 {
      assert a + b == a;
      assert Run(st, a).effects + Run(Run(st, a).state, b).effects == Run(st, a).effects;
    } else {
      RunConcat(st, a, b[..|b| - 1]);
      RunConcatStep(st, a, b[..|b| - 1], b[|b| - 1]);
      assert b == b[..|b| - 1] + [b[|b| - 1]];
    }
  }

  /** The inductive step of `RunConcat`: one more event at the end of the second log. */
  lemma RunConcatStep(st: PageState, a: seq<PageEvent>, init: seq<PageEvent>, e: PageEvent)
    requires Run(st, a + init).state == Run(Run(st, a).state, init).state
    requires Run(st, a + init).effects == Run(st, a).effects + Run(Run(st, a).state, init).effects
    ensures Run(st, a + (init + [e])).state == Run(Run(st, a).state, init + [e]).state
    ensures Run(st, a + (init + [e])).effects == Run(st, a).effects + Run(Run(st, a).state, init + [e]).effects
  {
    var mid := Run(st, a);
    assert a + (init + [e]) == (a + init) + [e];
    RunAppend(st, a + init, e);
    RunAppend(mid.state, init, e);
    var last := Step(Run(mid.state, init).state, e);
    assert Run(st, a + (init + [e])).effects
        == (mid.effects + Run(mid.state, init).effects) + last.effects;
  }

  /**
   * A change notification anywhere in the log changes no state: the page ends
   * where it would have ended without it, and the only trace it leaves is one
   * fetch request at that point.
   */
  lemma RealtimeChangeInvisible(st: PageState, a: seq<PageEvent>, b: seq<PageEvent>)
    ensures Run(st, a + [RealtimeChange] + b).state == Run(st, a + b).state
    ensures Run(st, a + [RealtimeChange] + b).effects
         == Run(st, a).effects + [FetchBookmarks] + Run(Run(st, a).state, b).effects
  {
    var mid := Run(st, a).state;
    RunConcat(st, a + [RealtimeChange], b);
    RunAppend(st, a, RealtimeChange);
    RunConcat(st, a, b);
    assert Step(mid, RealtimeChange) == Transition(mid, [FetchBookmarks]);
  }

  /**
   * Whatever happened before, a successful fetch leaves the collection equal
   * to the returned rows and the spinner off.
   */
  lemma RefreshAfterAnything(st: PageState, events: seq<PageEvent>, rows: seq<Bookmark>)
    ensures Run(st, events + [FetchSettled(Collection.Responded(Some(rows), None))]).state.bookmarks == rows
    ensures !Run(st, events + [FetchSettled(Collection.Responded(Some(rows), None))]).state.loading
  {
    RunAppend(st, events, FetchSettled(Collection.Responded(Some(rows), None)));
  }

  /** Every change notification in the log yields a fetch request. */
  lemma {:induction false} EveryChangeRefetches(st: PageState, events: seq<PageEvent>)
    ensures multiset(Run(st, events).effects)[FetchBookmarks] >= multiset(events)[RealtimeChange]
    decreases |events|
  {
    if |events| > 0 {
      var first := Step(st, events[0]);
      var rest := Run(first.state, events[1..]);
      EveryChangeRefetches(first.state, events[1..]);
      StepRefetches(st, events[0]);
      assert Run(st, events).effects == first.effects + rest.effects;
      assert multiset(events) == multiset([events[0]]) + multiset(events[1..]) by {
        assert events == [events[0]] + events[1..];
      }
    }
  }

  /** A change notification asks for one fetch. */
  lemma StepRefetches(st: PageState, e: PageEvent)
    ensures multiset(Step(st, e).effects)[FetchBookmarks] >= multiset([e])[RealtimeChange]
  {
    if e == RealtimeChange {
      assert Step(st, e).effects == [FetchBookmarks];
    }
  }

  /**
   * A sign-out followed by a sign-in with a user: the login redirect, then
   * exactly one fetch; the collection is the one held before the sign-out.
   */
  lemma SignOutThenSignIn(st: PageState, out: Option<Session>, session: Option<Session>)
    requires SessionUser(session).Some?
    ensures Run(st, [AuthStateChanged(SignedOutEvent, out), AuthStateChanged(SignedInEvent, session)]).effects
         == [RedirectTo(LoginPath), FetchBookmarks]
    ensures Run(st, [AuthStateChanged(SignedOutEvent, out), AuthStateChanged(SignedInEvent, session)]).state.bookmarks
         == st.bookmarks
  {
    var events := [AuthStateChanged(SignedOutEvent, out), AuthStateChanged(SignedInEvent, session)];
    var first := OnAuthStateChange(st, SignedOutEvent, out);
    var second := OnAuthStateChange(first.state, SignedInEvent, session);
    assert events[1..] == [AuthStateChanged(SignedInEvent, session)];
    assert Run(first.state, events[1..]) == Transition(second.state, second.effects + []) by {
      assert events[1..][1..] == [];
    }
    assert Run(st, events) == Transition(second.state, first.effects + second.effects);
  }

  /**
   * The mount-time lookup reacts to a session exactly as the listener reacts
   * to the initial-session event carrying it.
   */
  lemma SessionCheckAsInitialSession(st: PageState, session: Option<Session>)
    ensures OnSessionChecked(st, session) == OnAuthStateChange(st, InitialSessionEvent, session)
  {
    var r := OnAuthStateChange(st, InitialSessionEvent, session);
    assert IsSignInEvent(InitialSessionEvent);
    if SessionUser(session).Some? {
      assert r.state == st.(user := SessionUser(session));
    }
  }

  /**
   * So a mount that finds a session, followed by the listener's initial
   * session event, asks for two fetches of the same rows.
   */
  lemma MountFetchesTwice(session: Option<Session>)
    requires SessionUser(session).Some?
    ensures Run(Initial, [SessionChecked(session), AuthStateChanged(InitialSessionEvent, session)]).effects
         == [FetchBookmarks, FetchBookmarks]
    ensures Run(Initial, [SessionChecked(session), AuthStateChanged(InitialSessionEvent, session)]).state
         == Initial.(user := SessionUser(session))
  {
    var events := [SessionChecked(session), AuthStateChanged(InitialSessionEvent, session)];
    var first := OnSessionChecked(Initial, session);
    var second := OnAuthStateChange(first.state, InitialSessionEvent, session);
    SessionCheckAsInitialSession(Initial, session);
    assert events[1..] == [AuthStateChanged(InitialSessionEvent, session)];
    assert Run(first.state, events[1..]) == Transition(second.state, second.effects + []) by {
      assert events[1..][1..] == [];
    }
    assert Run(Initial, events) == Transition(second.state, first.effects + second.effects);
  }

  /**
   * The sign-out button, then the listener's sign-out event: a remote sign-out
   * and two redirects to the login page; the page then renders nothing but
   * still holds the collection.
   */
  lemma SignOutButtonThenEvent(st: PageState, session: Option<Session>)
    ensures Run(st, [SignOutClicked, AuthStateChanged(SignedOutEvent, session)]).effects
         == [SignOutRemote, RedirectTo(LoginPath), RedirectTo(LoginPath)]
    ensures RenderGate(Run(st, [SignOutClicked, AuthStateChanged(SignedOutEvent, session)]).state) == Blank
    ensures Run(st, [SignOutClicked, AuthStateChanged(SignedOutEvent, session)]).state.bookmarks == st.bookmarks
  {
    var events := [SignOutClicked, AuthStateChanged(SignedOutEvent, session)];
    var first := OnSignOutClicked(st);
    var second := OnAuthStateChange(first.state, SignedOutEvent, session);
    assert events[1..] == [AuthStateChanged(SignedOutEvent, session)];
    assert Run(first.state, events[1..]) == Transition(second.state, second.effects + []) by {
      assert events[1..][1..] == [];
    }
    assert Run(st, events) == Transition(second.state, first.effects + second.effects);
  }

  /** What the page renders. */
  datatype Screen = Spinner | Blank | MainView

  /** While loading, a spinner; then nothing without a user; otherwise the library. */
  function RenderGate(st: PageState): (r: Screen)
    ensures r == Spinner <==> st.loading
    ensures r == Blank <==> !st.loading && st.user.None?
    ensures r == MainView <==> !st.loading && st.user.Some?
  {
    if st.loading then Spinner
    else if st.user.None? then Blank
    else MainView
  }

  /** After a sign-out the page renders nothing (and has asked for the login page). */
  lemma SignOutRendersBlank(st: PageState, session: Option<Session>)
    ensures RenderGate(OnAuthStateChange(st, SignedOutEvent, session).state) == Blank
  {
  }

  /** A sign-in with a user followed by the fetch it asked for shows the library. */
  lemma SignInThenFetchShowsMain(st: PageState, event: string, session: Option<Session>, result: Collection.FetchResult)
    requires IsSignInEvent(event) && SessionUser(session).Some?
    ensures RenderGate(OnFetchSettled(OnAuthStateChange(st, event, session).state, result).state) == MainView
  {
  }

  /**
   * The list component only appears once loading is over, so its own
   * placeholder cards are never what the user sees.
   */
  lemma MainViewNeverSkeleton(st: PageState)
    requires RenderGate(st) == MainView
    ensures !Search.View(st.loading, st.bookmarks, st.query).Skeleton?
  {
  }
}

=== FILE: search.dfy ===
/**
 * The bookmark list component: the live search filter and the choice of what
 * the list area shows.
 */
module Search {
  import opened Seqs
  import opened Text
  import opened Bookmarks
  import Collection

  /** A record matches when its lowered title or its lowered url includes the lowered query. */
  predicate Matches(b: Bookmark, query: string) {
    Includes(Lower(b.title), Lower(query)) || Includes(Lower(b.url), Lower(query))
  }

  function MatchesQuery(query: string): Bookmark -> bool {
    (b: Bookmark) => Matches(b, query)
  }

  /**
   * The records shown for a query: an order-preserving subsequence of the
   * collection holding exactly the matching records, each as often as in it.
   */
  function FilterBookmarks(list: seq<Bookmark>, query: string): (r: seq<Bookmark>)
    ensures IsSubsequence(r, list)
    ensures forall b :: b in r <==> b in list && Matches(b, query)
    ensures forall b: Bookmark :: Matches(b, query) ==> multiset(r)[b] == multiset(list)[b]
  {
    Filter(list, MatchesQuery(query))
  }

  /** Matching is a substring search in the title or the url, case folded on both sides. */
  lemma MatchesIffOccurs(b: Bookmark, query: string)
    ensures Matches(b, query) <==>
      (exists i :: OccursAt(Lower(b.title), Lower(query), i)) ||
      (exists i :: OccursAt(Lower(b.url), Lower(query), i))
  {
    assert Matches(b, query) == (Includes(Lower(b.title), Lower(query)) || Includes(Lower(b.url), Lower(query)));
    IncludesIffOccurs(Lower(b.title), Lower(query));
    IncludesIffOccurs(Lower(b.url), Lower(query));
  }

  /** The empty query keeps every record, in the same order. */
  lemma EmptyQueryKeepsAll(list: seq<Bookmark>)
    ensures FilterBookmarks(list, "") == list
  {
    forall b | b in list
      ensures MatchesQuery("")(b)
    {
      IncludesEmpty(Lower(b.title));
    }
    FilterKeepsAll(list, MatchesQuery(""));
  }

  /** Filtering the filtered list again with the same query changes nothing. */
  lemma FilterIdempotent(list: seq<Bookmark>, query: string)
    ensures FilterBookmarks(FilterBookmarks(list, query), query) == FilterBookmarks(list, query)
  {
    Seqs.FilterIdempotent(list, MatchesQuery(query));
  }

  /** Queries that lower to the same string select the same records. */
  lemma CaseInsensitive(list: seq<Bookmark>, q1: string, q2: string)
    requires Lower(q1) == Lower(q2)
    ensures FilterBookmarks(list, q1) == FilterBookmarks(list, q2)
  {
    FilterExtensional(list, MatchesQuery(q1), MatchesQuery(q2));
  }

  /** In particular, lowering the query first makes no difference. */
  lemma LoweredQuery(list: seq<Bookmark>, query: string)
    ensures FilterBookmarks(list, Lower(query)) == FilterBookmarks(list, query)
  {
    LowerIdempotent(query);
    CaseInsensitive(list, Lower(query), query);
  }

  /** A deleted id is gone from the rendered list whatever the query. */
  lemma DeleteThenFilter(list: seq<Bookmark>, id: string, query: string)
    ensures FilterBookmarks(Collection.Delete(list, id), query)
         == Collection.Delete(FilterBookmarks(list, query), id)
    ensures forall b :: b in FilterBookmarks(Collection.Delete(list, id), query) ==> b.id != id
  {
    FilterCommute(list, Collection.Keeps(id), MatchesQuery(query));
  }

  /** An added record heads the rendered list exactly when it matches the query. */
  lemma AddThenFilter(list: seq<Bookmark>, b: Bookmark, query: string)
    ensures Matches(b, query) ==>
      FilterBookmarks(Collection.Add(list, b), query) == [b] + FilterBookmarks(list, query)
    ensures !Matches(b, query) ==>
      FilterBookmarks(Collection.Add(list, b), query) == FilterBookmarks(list, query)
  {
    assert Collection.Add(list, b)[1..] == list;
  }

  const NoMatchesHeading := "No matches found"
  const NoMatchesHint := "Try adjusting your search terms"
  const EmptyHeading := "Your collection is empty"
  const EmptyHint := "Add your first bookmark to get started"

  /** Number of placeholder cards shown while loading. */
  const SkeletonCards := 6

  /** What the list area shows. */
  datatype ListView =
    | Skeleton(cards: nat)
    | EmptyState(heading: string, hint: string)
    | Grid(items: seq<Bookmark>)

  /**
   * Placeholders while loading; otherwise the empty-state panel when nothing
   * is left after filtering (worded for "no matches" exactly when a query is
   * typed); otherwise one card per filtered record.
   */
  function View(loading: bool, list: seq<Bookmark>, query: string): (r: ListView)
    ensures r.Skeleton? <==> loading
    ensures r.Skeleton? ==> r.cards == SkeletonCards
    ensures r.EmptyState? <==> !loading && FilterBookmarks(list, query) == []
    ensures r.EmptyState? ==> (r.heading == NoMatchesHeading <==> query != "")
    ensures r.EmptyState? ==> (r.hint == NoMatchesHint <==> query != "")
    ensures r.EmptyState? && query == "" ==> r == EmptyState(EmptyHeading, EmptyHint)
    ensures r.EmptyState? && query != "" ==> r == EmptyState(NoMatchesHeading, NoMatchesHint)
    ensures r.Grid? ==> r.items == FilterBookmarks(list, query) && |r.items| > 0
  {
    if loading then Skeleton(SkeletonCards)
    else
      var shown := FilterBookmarks(list, query);
      if |shown| == 0 then
        if query != "" then EmptyState(NoMatchesHeading, NoMatchesHint)
        else EmptyState(EmptyHeading, EmptyHint)
      else Grid(shown)
  }

  /** With no query, the "empty collection" panel appears exactly when the collection is empty. */
  lemma EmptyCollectionPanel(list: seq<Bookmark>)
    ensures View(false, list, "") == EmptyState(EmptyHeading, EmptyHint) <==> list == []
  {
    EmptyQueryKeepsAll(list);
  }

  /**
   * A record in whose title and url no character lowers to the query's
   * lowered first character does not match it (for any first character, so
   * "Git" and ".com" alike).
   */
  lemma MissingLetterNoMatch(b: Bookmark, query: string)
    requires |query| > 0
    requires forall c :: c in b.title ==> LowerChar(c) != LowerChar(query[0])
    requires forall c :: c in b.url ==> LowerChar(c) != LowerChar(query[0])
    ensures !Matches(b, query)
  {
    LowerAvoids(b.title, query[0]);
    LowerAvoids(b.url, query[0]);
    NotIncludedWithoutFirstChar(Lower(b.title), Lower(query));
    NotIncludedWithoutFirstChar(Lower(b.url), Lower(query));
  }

  /** Filtering a two-record list when only the first record matches. */
  lemma FilterPair(a: Bookmark, b: Bookmark, query: string)
    requires Matches(a, query) && !Matches(b, query)
    ensures FilterBookmarks([a, b], query) == [a]
  {
    assert [a, b][1..] == [b];
    assert [b][1..] == [];
  }

  lemma GitHubMatchesGit()
    ensures Matches(Bookmark("1", "GitHub", "https://github.com", "", ""), "git")
  {
    assert Lower("git") == "git";
    assert Lower("GitHub") == "github";
    assert "github"[..3] == "git";
  }

  lemma ExampleTitleLacksG()
    ensures forall c :: c in "Example" ==> LowerChar(c) != 'g'
  {
  }

  lemma ExampleUrlLacksG()
    ensures forall c :: c in "https://example.com" ==> LowerChar(c) != 'g'
  {
  }

  /** The worked example: "git" finds GitHub and not Example. */
  lemma GitExample()
    ensures FilterBookmarks(
      [Bookmark("1", "GitHub", "https://github.com", "", ""),
       Bookmark("2", "Example", "https://example.com", "", "")], "git")
      == [Bookmark("1", "GitHub", "https://github.com", "", "")]
  {
    var gh := Bookmark("1", "GitHub", "https://github.com", "", "");
    var ex := Bookmark("2", "Example", "https://example.com", "", "");
    GitHubMatchesGit();
    ExampleTitleLacksG();
    ExampleUrlLacksG();
    MissingLetterNoMatch(ex, "git");
    FilterPair(gh, ex, "git");
  }
}

=== FILE: seqs.dfy ===
/**
 * Generic facts about sequences: the subsequence order and the model of
 * JavaScript's `Array.prototype.filter`, which both collection reducers and
 * the search view are built on.
 */
module Seqs {

  /** `a` can be obtained from `b` by deleting elements, keeping the order of the rest. */
  ghost predicate IsSubsequence<T>(a: seq<T>, b: seq<T>)
    decreases |b|
  {
    if |a| == 0 then true
    else if |b| == 0 then false
    else (a[0] == b[0] && IsSubsequence(a[1..], b[1..])) || IsSubsequence(a, b[1..])
  }

  /**
   * `Array.prototype.filter`: visits the elements from the front and keeps
   * those for which `p` holds. The result is an order-preserving subsequence
   * that holds exactly the elements satisfying `p`, each as often as in `s`.
   */
  function Filter<T(==,!new)>(s: seq<T>, p: T -> bool): (r: seq<T>)
    ensures IsSubsequence(r, s)
    ensures forall x :: x in r <==> x in s && p(x)
    ensures forall x :: p(x) ==> multiset(r)[x] == multiset(s)[x]
    ensures |r| <= |s|
  {
    if |s| == 0 then []
    else
      assert s == [s[0]] + s[1..];
      if p(s[0]) then [s[0]] + Filter(s[1..], p) else Filter(s[1..], p)
  }

  /** A subsequence never holds an element more often than the sequence it comes from. */
  lemma {:induction false} SubsequenceMultiset<T>(a: seq<T>, b: seq<T>)
    requires IsSubsequence(a, b)
    ensures multiset(a) <= multiset(b)
    decreases |b|
  {
    if |a| == 0 {
    } else {
      assert |b| > 0;
      assert b == [b[0]] + b[1..];
      if a[0] == b[0] && IsSubsequence(a[1..], b[1..]) {
        SubsequenceMultiset(a[1..], b[1..]);
        assert a == [a[0]] + a[1..];
      } else {
        SubsequenceMultiset(a, b[1..]);
      }
    }
  }

  /**
   * The contract of `Filter` pins its result down: any order-preserving
   * subsequence of `s` that holds only elements satisfying `p`, and every
   * occurrence of each of them, is `Filter(s, p)`.
   */
  lemma {:induction false} FilterUnique<T(!new)>(s: seq<T>, p: T -> bool, r: seq<T>)
    requires IsSubsequence(r, s)
    requires forall x :: x in r ==> p(x)
    requires forall x :: p(x) ==> multiset(r)[x] == multiset(s)[x]
    ensures r == Filter(s, p)
    decreases |s|
  {
    if |s| == 0 {
      assert |r| == 0;
    } else {
      var x, t := s[0], s[1..];
      assert s == [x] + t;
      if p(x) {
        assert multiset(r)[x] == multiset(t)[x] + 1;
        assert |r| > 0;
        if !(r[0] == x && IsSubsequence(r[1..], t)) {
          assert IsSubsequence(r, t);
          SubsequenceMultiset(r, t);
          assert false;
        }
        assert r == [x] + r[1..];
        forall y | p(y)
          ensures multiset(r[1..])[y] == multiset(t)[y]
        {
          assert multiset(r) == multiset{x} + multiset(r[1..]);
        }
        FilterUnique(t, p, r[1..]);
      } else {
        if |r| > 0 {
          assert r[0] in r;
          assert IsSubsequence(r, t);
        }
        FilterUnique(t, p, r);
      }
    }
  }

  /** When every element satisfies `p`, filtering changes nothing. */
  lemma {:induction false} FilterKeepsAll<T(!new)>(s: seq<T>, p: T -> bool)
    requires forall x :: x in s ==> p(x)
    ensures Filter(s, p) == s
    decreases |s|
  {
    if |s| > 0 {
      assert s[0] in s;
      FilterKeepsAll(s[1..], p);
      assert s == [s[0]] + s[1..];
    }
  }

  /** Filtering twice by the same predicate is filtering once. */
  lemma FilterIdempotent<T(!new)>(s: seq<T>, p: T -> bool)
    ensures Filter(Filter(s, p), p) == Filter(s, p)
  {
    FilterKeepsAll(Filter(s, p), p);
  }

  /** Only the values of the predicate on the elements of `s` matter. */
  lemma {:induction false} FilterExtensional<T(!new)>(s: seq<T>, p: T -> bool, q: T -> bool)
    requires forall x :: x in s ==> p(x) == q(x)
    ensures Filter(s, p) == Filter(s, q)
    decreases |s|
  {
    if |s| > 0 {
      assert s[0] in s;
      FilterExtensional(s[1..], p, q);
    }
  }

  /** Two filters may be applied in either order. */
  lemma {:induction false} FilterCommute<T(!new)>(s: seq<T>, p: T -> bool, q: T -> bool)
    ensures Filter(Filter(s, p), q) == Filter(Filter(s, q), p)
    decreases |s|
  {
    if |s| > 0 {
      FilterCommute(s[1..], p, q);
    }
  }
}

=== FILE: text.dfy ===
/**
 * The two string operations the search view relies on: `toLowerCase` (here
 * restricted to ASCII letters) and `includes` (substring test).
 */
module Text {

  /** The ASCII upper-case letters. */
  predicate IsUpper(c: char) {
    'A' <= c <= 'Z'
  }

  /** Lowercase of one character: `A`..`Z` map to `a`..`z`, everything else is kept. */
  function LowerChar(c: char): char {
    if IsUpper(c) then (c as int - 'A' as int + 'a' as int) as char else c
  }

  /** `String.prototype.toLowerCase`, on ASCII: same length, every character lowered in place. */
  function Lower(s: string): (r: string)
    ensures |r| == |s|
    ensures forall i :: 0 <= i < |s| ==> r[i] == LowerChar(s[i])
    ensures forall i :: 0 <= i < |r| ==> !IsUpper(r[i])
  {
    if |s| == 0 then "" else [LowerChar(s[0])] + Lower(s[1..])
  }

  /** Lowering an already lowered string changes nothing. */
  lemma LowerIdempotent(s: string)
    ensures Lower(Lower(s)) == Lower(s)
  {
    var l := Lower(s);
    assert forall i :: 0 <= i < |l| ==> LowerChar(l[i]) == l[i];
  }

  /** A character whose lowercase differs from every lowered character of `s` is absent from `Lower(s)`. */
  lemma LowerAvoids(s: string, c: char)
    requires forall x :: x in s ==> LowerChar(x) != LowerChar(c)
    ensures LowerChar(c) !in Lower(s)
  {
    forall i | 0 <= i < |s|
      ensures Lower(s)[i] != LowerChar(c)
    {
      assert s[i] in s;
    }
  }

  /** `sub` occurs in `s` starting at index `i`. */
  ghost predicate OccursAt(s: string, sub: string, i: int) {
    0 <= i && i + |sub| <= |s| && s[i..i + |sub|] == sub
  }

  /**
   * `String.prototype.includes`: tries every start position from the front.
   * The empty string is included in every string, the empty one too.
   */
  predicate Includes(s: string, sub: string)
    decreases |s|
  {
    |sub| <= |s| && (s[..|sub|] == sub || (|s| > 0 && Includes(s[1..], sub)))
  }

  /** `Includes` is exactly "occurs at some position". */
  lemma {:induction false} IncludesIffOccurs(s: string, sub: string)
    ensures Includes(s, sub) <==> exists i :: OccursAt(s, sub, i)
    decreases |s|
  {
    if |sub| > |s| {
      assert forall i :: !OccursAt(s, sub, i);
    } else if s[..|sub|] == sub {
      assert OccursAt(s, sub, 0);
    } else {
      IncludesIffOccurs(s[1..], sub);
      if Includes(s[1..], sub) {
        var i :| OccursAt(s[1..], sub, i);
        assert s[i + 1..i + 1 + |sub|] == s[1..][i..i + |sub|];
        assert OccursAt(s, sub, i + 1);
      }
      if exists i :: OccursAt(s, sub, i) {
        var i :| OccursAt(s, sub, i);
        assert i != 0;
        assert s[1..][i - 1..i - 1 + |sub|] == s[i..i + |sub|];
        assert OccursAt(s[1..], sub, i - 1);
      }
    }
  }

  /** A non-empty string whose first character never occurs in `s` is not included in it. */
  lemma {:induction false} NotIncludedWithoutFirstChar(s: string, sub: string)
    requires |sub| > 0 && sub[0] !in s
    ensures !Includes(s, sub)
    decreases |s|
  {
    if |sub| <= |s| {
      assert s[0] in s;
      NotIncludedWithoutFirstChar(s[1..], sub);
    }
  }

  /** Every string includes the empty string.*/
  lemma IncludesEmpty(s: string)
    ensures Includes(s, "")
  {
  }
}

=== FILE: wrappers.dfy ===
/** Optional values: the model's stand-in for the source's `null`/`undefined`. */
module Wrappers {

  datatype Option<+T> = None | Some(value: T) {

    /** The wrapped value, or `default` when there is none (JavaScript's `x || default`). */
    function GetOr(default: T): T {
      match this
      case Some(v) => v
      case None => default
    }
  }
}
